=== FILE: README.md ===
# TomorrowMe front-end: entity gateways and screen state, modelled in Dafny

TomorrowMe is a Telegram Mini App for tasks, habits, goals, schedules and
notification settings. Every screen fetches a list for the current Telegram
user (`tguser_id`). It renders the list and patches it locally after each
create, update or delete it sends to a REST service.

This project models two pieces of that front-end as pure Dafny functions.

- **Entity gateways** (`Tasks`, `Habits`, `Goals`, `Schedules`,
  `Notifications`). Each call returns a `Call(result, sent)`. `sent` is the
  trace of HTTP requests the call issues, and `result` is a resolved value or
  a thrown `Error`. The server's answer is an input (`Reply`): either the data
  or a `Fault` that the gateway re-throws unchanged. `createX` checks its
  mandatory fields with JavaScript truthiness before any request:
  - a string fails when it is `undefined` or `""`;
  - a `*_number` fails only when it is `undefined`, so `0` passes.
- **Screen state machines** (`GoalListScreen`, `HabitListScreen`,
  `TaskListScreen`, `NotificationSettingsScreen`, `NotificationForm`,
  `UserProfileScreen`, `UserStatisticsScreen`). Each fetch effect and event
  handler is one transition. It returns the new state and the requests it
  issued.

Shared modules:
- `Js`: optional fields, truthiness and `String.prototype.trim`.
- `Http`: requests, replies, errors and call traces.
- `Keyed`: the by-id `map` and `filter` the screens use to patch lists.
- `Identity`: the `tguser_id` fallback.

Unlike the other gateways, the notification gateway leaves data out of two
requests:
- `updateNotificationSetting` sends neither the patch nor `tguser_id`
  (src/api/notificationService.ts:82-84).
- `deleteNotificationSetting` sends no `tguser_id`
  (src/api/notificationService.ts:97-99).

A consequence the model proves (`NotificationForm.FormSubmissionAlwaysRejected`):
- The notification form has no control for `reminder_type`.
- So when the form is mounted without initial data, no submission can pass
  the gateway's check.
- Such a submission sends no request and leaves the page's list unchanged.

## Model

| member | source | states |
|---|---|---|
| Js.Trim | src/components/TaskList.tsx:46-51 | `trim` yields the contiguous middle of the text with only whitespace removed at the two ends; it is empty exactly when the text is all whitespace, and otherwise starts and ends with a non-whitespace character |
| Keyed.ReplaceById | src/pages/GoalList.tsx:102-106 | replacing by id keeps the length; each position holds the server record if its id matches and the old record otherwise |
| Keyed.RemoveById | src/pages/GoalList.tsx:123 | filtering by id keeps exactly the records whose id differs: a record with the id occurs zero times, every other record occurs as often as in the original, and the result is a subsequence of the original, so relative order is kept |
| Keyed.RemoveByIdAppend | src/pages/HabitsList.tsx:122 | filtering distributes over concatenation: the survivors of a prefix stay ahead of the survivors of the rest |
| Keyed.RemoveByIdAbsent | src/components/TaskList.tsx:83 | deleting an id that no record carries leaves the list exactly as it was |
| Identity.ResolveUserId | src/pages/GoalList.tsx:33-35 | the host user's id when there is one, otherwise the fixed fallback 1148831907, which never trips the screens' `!tguser_id` guard |
| Tasks.FetchTasksByUserId | src/api/tasks.ts:30-42 | one GET on `/tasks` with `tguser_id`; the list is returned as-is or the fault re-thrown unchanged |
| Tasks.CreateTask | src/api/tasks.ts:45-62 | rejected exactly when `task_number` is undefined or `task_description` is undefined or empty (number 0 accepted); a rejection issues no request and carries the fixed message; otherwise exactly one POST of the payload with `tguser_id`, the server record returned unchanged or the fault re-thrown |
| Tasks.UpdateTask | src/api/tasks.ts:65-79 | one PUT on `/tasks/{task_id}` carrying the partial payload unchanged and `tguser_id`; result relayed |
| Tasks.DeleteTask | src/api/tasks.ts:82-98 | one DELETE on `/tasks/{task_id}` with `tguser_id`; the server message relayed |
| Habits.FetchHabitsByUserId | src/api/habits.ts:27-39 | one GET on `/habits` with `tguser_id`; result relayed |
| Habits.CreateHabit | src/api/habits.ts:41-61 | rejected exactly when `habit_number` is undefined or `habit_description` is undefined or empty, with no request; otherwise one POST of the payload, the server record returned as-is or the fault re-thrown |
| Habits.UpdateHabit | src/api/habits.ts:63-81 | one PUT on `/habits/{habit_id}` forwarding the partial data unchanged |
| Habits.DeleteHabit | src/api/habits.ts:83-99 | one DELETE on `/habits/{habit_id}` with `tguser_id`, returning the server message |
| Goals.FetchGoalsByUserId | src/api/goals.ts:33-45 | one GET on `/goals` with `tguser_id`; result relayed |
| Goals.CreateGoal | src/api/goals.ts:47-64 | rejected exactly when `goal_number` is undefined or `goal_description` is undefined or empty, with no request; otherwise one POST of the payload, the server record returned unchanged or the fault re-thrown |
| Goals.UpdateGoal | src/api/goals.ts:66-80 | one PUT on `/goals/{goal_id}` forwarding the partial payload unchanged |
| Goals.DeleteGoal | src/api/goals.ts:82-98 | one DELETE on `/goals/{goal_id}` with `tguser_id`; result relayed |
| Schedules.FetchSchedulesByUserId | src/api/schedules.ts:31-43 | one GET on `/schedules` with `tguser_id`; result relayed |
| Schedules.CreateSchedule | src/api/schedules.ts:46-68 | rejected as soon as any one of `activity`, `date`, `time_frame` is undefined or empty, with no request; otherwise one POST of the payload, result relayed |
| Schedules.UpdateSchedule | src/api/schedules.ts:70-88 | one PUT on `/schedules/{schedule_id}` forwarding the partial payload |
| Schedules.DeleteSchedule | src/api/schedules.ts:90-106 | one DELETE on `/schedules/{schedule_id}` with `tguser_id`; result relayed |
| Notifications.FetchNotificationSettingsByUserId | src/api/notificationService.ts:30-45 | one GET on `/notifications` with `tguser_id`; result relayed |
| Notifications.CreateNotificationSetting | src/api/notificationService.ts:47-74 | rejected as soon as any one of `item_type`, `reminder_type`, `reminder_times` is undefined or empty, with no request; otherwise one POST of the data with `tguser_id`, result relayed |
| Notifications.UpdateNotificationSetting | src/api/notificationService.ts:76-90 | one PUT on `/notifications/{setting_id}` with no body and no `tguser_id`, whatever payload and user id it is given |
| Notifications.DeleteNotificationSetting | src/api/notificationService.ts:92-105 | one DELETE on `/notifications/{setting_id}` with no `tguser_id` |
| GoalListScreen.Initial | src/pages/GoalList.tsx:13-30 | empty list, loading, no error, no goal being edited, create form numbered 1 whose empty description the gateway would reject |
| GoalListScreen.Load | src/pages/GoalList.tsx:37-56 | loading always clears and the forms are untouched; without a user id "User not found" and no request; otherwise one GET and either the fetched list or "Error loading goals" with the list unchanged |
| GoalListScreen.EditNewGoalDescription | src/pages/GoalList.tsx:162-167 | typing changes only the create form's description |
| GoalListScreen.HandleCreateGoal | src/pages/GoalList.tsx:58-84 | a form the gateway rejects sends nothing and sets "Error creating goal"; an accepted form is posted; on success the server goal is appended after the unchanged earlier goals and the form resets with number `(n or 1) + 1`; on failure only the error changes |
| GoalListScreen.HandleUpdateGoal | src/pages/GoalList.tsx:86-113 | the edit buffer is sent to `/goals/{id}`; on success exactly the goals with that id are replaced in place, length unchanged, editing cleared, nothing else changes; on failure only "Error updating goal" is set |
| GoalListScreen.HandleDeleteGoal | src/pages/GoalList.tsx:115-128 | on success no goal with the id remains and every other goal keeps its number of occurrences, in the same relative order; on failure only "Error deleting goal" is set |
| GoalListScreen.CreateSessionNumbersConsecutively | src/pages/GoalList.tsx:66-79 | over any run of typed-then-submitted goals the server accepts, starting from number n >= 1, the goals are appended in server order, the form ends numbered n + k after k creates, and no error appears |
| HabitListScreen.Initial | src/pages/HabitsList.tsx:13-28 | empty list, loading, no error, create form numbered 1 |
| HabitListScreen.Load | src/pages/HabitsList.tsx:35-54 | loading always clears; without a user id "User not found" and no request; otherwise the fetched list or "Error loading habits" with the list unchanged |
| HabitListScreen.HandleCreateHabit | src/pages/HabitsList.tsx:56-83 | a rejected form sends nothing; on success the server habit is appended and the form resets numbered `(n or 1) + 1`; any failure only sets "Error creating habit" |
| HabitListScreen.HandleUpdateHabit | src/pages/HabitsList.tsx:85-112 | on success the habits with the id are replaced in place, length unchanged, editing cleared; on failure only the error changes |
| HabitListScreen.HandleDeleteHabit | src/pages/HabitsList.tsx:114-127 | on success the habits with the id are filtered out; every other habit keeps its number of occurrences and its relative order; on failure only the error changes |
| HabitListScreen.Render | src/pages/HabitsList.tsx:129-139 | spinner exactly while loading; otherwise the error view exactly when the error is truthy, showing that error string, and the list only when it is not |
| HabitListScreen.ErrorViewIsPermanent | src/pages/HabitsList.tsx:137-139 | once the error view shows, it still shows after any sequence of fetches, creates, updates and deletes, because no transition clears the error or restarts loading |
| TaskListScreen.Initial | src/components/TaskList.tsx:14-17 | no tasks, empty input, loading, no error |
| TaskListScreen.Load | src/components/TaskList.tsx:23-43 | loading always clears; without a user id "User not found" and no request; otherwise the fetched list or "Error loading tasks" |
| TaskListScreen.Mount | src/components/TaskList.tsx:20-43 | the first fetch of a mount always goes out with the fallback id 1148831907, because the host user is not known on the first render; a second fetch with the host user's id follows exactly when that id differs from the fallback and is non-zero, its list is kept if it arrives, and loading clears either way; the error is "Error loading tasks" when either fetch failed, so a failed fallback fetch keeps the error view up over the host user's list for good; a zero host id sets "User not found" instead and sends nothing more |
| TaskListScreen.FailedFallbackHidesTasks | src/components/TaskList.tsx:34-36 | when the fallback fetch fails and the host user's fetch succeeds, the host's tasks are stored but the render shows "Error loading tasks" instead of them |
| TaskListScreen.HandleCreateTask | src/components/TaskList.tsx:45-60 | an all-whitespace input (or no user id) changes nothing and sends nothing; otherwise exactly one POST to `/tasks` with `tguser_id` whose payload holds only `task_number`, one more than the number of tasks, and `task_description`, the trimmed, non-empty text, which the gateway never rejects; on success the task is appended and the input cleared; on failure only the error changes |
| TaskListScreen.HandleToggleComplete | src/components/TaskList.tsx:62-76 | the patch holds only `is_completed`, the negation of the task's flag with an absent flag read as false; on success the tasks with that id are replaced in place |
| TaskListScreen.HandleEditTask | src/components/TaskList.tsx:90-104 | the patch holds only the new description; on success the tasks with that id are replaced in place |
| TaskListScreen.HandleDeleteTask | src/components/TaskList.tsx:78-88 | on success the tasks with the id are filtered out; every other task keeps its number of occurrences and its relative order; on failure only the error changes |
| TaskListScreen.Render | src/components/TaskList.tsx:106-116 | spinner exactly while loading; otherwise the error view, showing that error string, exactly when the error is truthy, so it hides the list entirely |
| NotificationSettingsScreen.Initial | src/pages/NotificationSettingsPage.tsx:14-17 | empty list, loading |
| NotificationSettingsScreen.Load | src/pages/NotificationSettingsPage.tsx:21-34 | always fetches and always clears loading; a failure changes nothing else (the list stays empty on mount, no error state exists) |
| NotificationSettingsScreen.HandleCreate | src/pages/NotificationSettingsPage.tsx:36-46 | a setting the gateway rejects changes nothing and sends nothing; on success the server setting is appended at the end; a failed request leaves the list unchanged |
| NotificationSettingsScreen.HandleUpdate | src/pages/NotificationSettingsPage.tsx:48-66 | sends a bare PUT; on success the settings with the id are replaced in place, length unchanged; on failure nothing changes |
| NotificationSettingsScreen.HandleDelete | src/pages/NotificationSettingsPage.tsx:68-79 | on success the settings with the id are removed; every other setting keeps its number of occurrences and its relative order; on failure nothing changes |
| NotificationForm.InitialForm | src/components/NotificationSettingForm.tsx:13-19 | the given initial data, or the three text fields empty and every other field absent |
| NotificationForm.HandleChange | src/components/NotificationSettingForm.tsx:21-29 | only the named field takes the new value; the others are unchanged |
| NotificationForm.HandleSubmit | src/components/NotificationSettingForm.tsx:31-39 | the current data is submitted as-is; afterwards the three text fields are empty and every other field, including any from the initial data, is absent |
| NotificationForm.FillKeepsReminderType | src/components/NotificationSettingForm.tsx:44-76 | no sequence of events from the form's two controls changes `reminder_type` |
| NotificationForm.FormSubmissionAlwaysRejected | src/components/NotificationSettingForm.tsx:13-38 | from a form without initial data, every submission is rejected by the gateway's check, sends no request and leaves the page's list unchanged |
| UserProfileScreen.Initial | src/components/UserProfile.tsx:8-12 | no user, not editing, empty edit buffer, loading, no error |
| UserProfileScreen.Load | src/components/UserProfile.tsx:17-38 | loading always clears; a fetched user fills both the shown user and the edit buffer; a failure sets "Error loading user data"; without a user id "User not found" and no request |
| UserProfileScreen.HandleInputChange | src/components/UserProfile.tsx:40-48 | only the named property of the edit buffer changes, to the typed text; every other property and the rest of the state stay |
| UserProfileScreen.HandleSave | src/components/UserProfile.tsx:50-60 | the edit buffer is sent; on success the server's user is shown and edit mode ends; on failure "Error updating user data" is set and the shown user stays |
| UserStatisticsScreen.Initial | src/components/UserStatistics.tsx:9-11 | no rows, loading, no error |
| UserStatisticsScreen.Load | src/components/UserStatistics.tsx:16-36 | loading clears in every case; without a user id "User not found" and no request; otherwise the rows as returned or "Error loading statistics" |

## Left out

- Rendering, styling and spinners are not modelled. Only the choice among spinner, error text and list is modelled, for the habit and task screens.
- The router and app shell are left out: `src/routes/AppRoutes.tsx`, `src/App.tsx` and `src/pages/ProfilePage.tsx` hold no data logic.
- The calendar page (src/pages/Сalendar.tsx) is left out. It drives a third-party calendar widget, and its schedule fetch, create, update and delete transitions and their failure toasts are not modelled; only the schedule gateways it calls are.
- The navbar's open/closed toggle is left out; it is UI with no statable data logic.
- The HTTP client is not modelled. Requests become an abstract trace and server answers become inputs.
- Logging (`console.error`) is omitted. It has no effect on state or results.
- Each handler is one atomic transition. Overlapping requests and the stale list captured at render time are concurrency and are not modelled.
- `src/api/user.ts` has no logic beyond forwarding. The profile and statistics screens record the request it would issue and take the server's answer directly.
- UserProfileScreen.Load: models one run of the fetch effect. As on the task list, the component first fetches with the fallback id 1148831907, because `useTelegramUser` starts as `null`, and runs the effect again once the host user arrives, but only when that id differs from the fallback: a non-zero id is fetched, a zero id sets "User not found" and sends nothing; that two-run sequence is modelled only in `TaskListScreen.Mount`.
- UserStatisticsScreen.Load: models one run of the fetch effect. The component first fetches with the fallback id and runs the effect again only when the host id differs from it (a zero id then sets "User not found"); that two-run sequence is modelled only in `TaskListScreen.Mount`.
- TaskListScreen.Mount: the two fetches are applied in order. If the first answer arrives after the second, the source would keep the stale list; that interleaving is concurrency and is not modelled.
- `useTelegramUser` reads the host's global object. The identity is an input; only the caller-side fallback is modelled.
- Identity.ResolveUserId: `Number(user.id)` is taken as the integer id, so a NaN id is not modelled.
- Js.FalsyNumber: NaN, which is also falsy in JavaScript, is not modelled because numbers are integers here.
- Timestamps, dates and `toLocaleDateString` are kept as opaque strings; formatting is locale-dependent.
- The HTML `required` and `type=number` constraints are browser behaviour and are not modelled. Without them, an empty create form reaches the gateway and is rejected there.
- `src/components/UpdateModal.tsx` and `src/components/NotificationSettingsList.tsx` only present data. The list's update button sends an empty patch, and the gateway drops any patch anyway.
- The create forms' other inputs (goal type, importance, dates; the habit fields) are not modelled. Only the goal description input is, because the run lemma needs it.
- The edit buttons that start and cancel editing are not modelled. Neither is the profile's edit-mode toggle.
- HabitListScreen.HandleUpdateHabit: the edit buffer is a `HabitData`. In the source, starting an edit copies the whole habit into it (src/pages/HabitsList.tsx:327), including `habit_id` and timestamps; those extra keys are not modelled.
- GoalListScreen.HandleUpdateGoal: the edit buffer is a `GoalData`. In the source, starting an edit copies the whole goal into it, including `goal_id` and timestamps; those extra keys are not modelled.
- NotificationForm.HandleChange: a control name other than the three text fields would add an extra key to the object. The model leaves the data unchanged instead.
- UserProfileScreen.HandleInputChange: the typed value is always stored as text, as the inputs deliver it. The numeric user fields get no special treatment.

=== FILE: goal_list.dfy ===
/** The goals screen: the goal list with its loading flag and error string,
    the create form and the edit buffer, and the transitions its fetch
    effect and handlers perform. */
module GoalListScreen {
  import opened Js
  import opened Http
  import opened Keyed
  import opened Identity
  import opened Goals

  const UserNotFound := "User not found"
  const LoadFailed := "Error loading goals"
  const CreateFailed := "Error creating goal"
  const UpdateFailed := "Error updating goal"
  const DeleteFailed := "Error deleting goal"

  datatype State = State(
    goals: seq<Goal>,
    loading: bool,
    error: Option<string>,
    newGoal: GoalData,
    editingGoalId: Option<int>,
    editedGoal: GoalData)

  /** A transition's resulting state and the requests it issued. */
  datatype Step = Step(state: State, sent: seq<Request<GoalData>>)

  /** The create form as first shown and as reset after a create, numbered `goalNumber`. */
  function BlankForm(goalNumber: int): GoalData {
    GoalData(Some(goalNumber), Some(""), Some(""), Some(""), Some(""), None, Some(false), Some(true), Some(""))
  }

  /** The state on mount: nothing loaded yet, the spinner showing, goal number 1. */
  function Initial(): (s: State)
    ensures s.goals == [] && s.loading && s.error == None
    ensures s.newGoal.goalNumber == Some(1) && !Creatable(s.newGoal)
    ensures s.editingGoalId == None && s.editedGoal == NoGoalFields
  {
    State([], true, None, BlankForm(1), None, NoGoalFields)
  }

  /** The fetch effect. Without a user id it reports "User not found" and
      fetches nothing; otherwise it stores the fetched list or the load
      error. Either way the spinner stops and the forms are untouched. */
  function Load(s: State, tguserId: int, reply: Reply<seq<Goal>>): (step: Step)
    ensures !step.state.loading
    ensures step.state == s.(goals := step.state.goals, loading := false, error := step.state.error)
    ensures Unidentified(tguserId) ==>
      step.sent == [] && step.state.goals == s.goals && step.state.error == Some(UserNotFound)
    ensures !Unidentified(tguserId) ==>
      step.sent == [Request(Get, Path(Collection, None), None, Some(tguserId))]
    ensures !Unidentified(tguserId) && reply.Delivered? ==>
      step.state.goals == reply.data && step.state.error == s.error
    ensures !Unidentified(tguserId) && reply.Failed? ==>
      step.state.goals == s.goals && step.state.error == Some(LoadFailed)
  {
    if Unidentified(tguserId) then Step(s.(error := Some(UserNotFound), loading := false), [])
    else
      var c := FetchGoalsByUserId(tguserId, reply);
      match c.result
      case Ok(goals) => Step(s.(goals := goals, loading := false), c.sent)
      case Err(_) => Step(s.(error := Some(LoadFailed), loading := false), c.sent)
  }

  /** Typing into the description input of the create form. */
  function EditNewGoalDescription(s: State, value: string): (s': State)
    ensures s'.newGoal.goalDescription == Some(value)
    ensures s'.newGoal == s.newGoal.(goalDescription := s'.newGoal.goalDescription)
    ensures s' == s.(newGoal := s'.newGoal)
  {
    s.(newGoal := s.newGoal.(goalDescription := Some(value)))
  }

  /** `handleCreateGoal`. A form the gateway rejects sends nothing and shows
      the create error. An accepted form is posted; on success the server's
      goal is appended after the existing ones and the form is reset with
      goal number `(n || 1) + 1`; on failure only the error changes. */
  function HandleCreateGoal(s: State, tguserId: int, reply: Reply<Goal>): (step: Step)
    ensures Unidentified(tguserId) ==> step == Step(s.(error := Some(UserNotFound)), [])
    ensures !Unidentified(tguserId) && !Creatable(s.newGoal) ==>
      step == Step(s.(error := Some(CreateFailed)), [])
    ensures !Unidentified(tguserId) && Creatable(s.newGoal) ==>
      step.sent == [Request(Post, Path(Collection, None), Some(s.newGoal), Some(tguserId))]
    ensures !Unidentified(tguserId) && Creatable(s.newGoal) && reply.Delivered? ==>
      && step.state == s.(goals := step.state.goals, newGoal := step.state.newGoal)
      && |step.state.goals| == |s.goals| + 1
      && step.state.goals[..|s.goals|] == s.goals
      && step.state.goals[|s.goals|] == reply.data
      && step.state.newGoal == BlankForm(if s.newGoal.goalNumber == Some(0) then 2 else s.newGoal.goalNumber.value + 1)
    ensures !Unidentified(tguserId) && Creatable(s.newGoal) && reply.Failed? ==>
      step.state == s.(error := Some(CreateFailed))
  {
    if Unidentified(tguserId) then Step(s.(error := Some(UserNotFound)), [])
    else
      var c := CreateGoal(tguserId, s.newGoal, reply);
      match c.result
      case Ok(created) =>
        Step(s.(goals := s.goals + [created], newGoal := BlankForm(OrOnePlusOne(s.newGoal.goalNumber))), c.sent)
      case Err(_) => Step(s.(error := Some(CreateFailed)), c.sent)
  }

  /** `handleUpdateGoal`. The edit buffer is sent as the patch; on success
      exactly the goals whose id matches are replaced by the server's goal,
      in place, and editing ends; on failure only the error changes. */
  function HandleUpdateGoal(s: State, tguserId: int, goalId: int, reply: Reply<Goal>): (step: Step)
    ensures Unidentified(tguserId) ==> step == Step(s.(error := Some(UserNotFound)), [])
    ensures !Unidentified(tguserId) ==>
      step.sent == [Request(Put, Path(Collection, Some(goalId)), Some(s.editedGoal), Some(tguserId))]
    ensures !Unidentified(tguserId) && reply.Delivered? ==>
      && step.state == s.(goals := step.state.goals, editingGoalId := None, editedGoal := NoGoalFields)
      && |step.state.goals| == |s.goals|
      && forall i :: 0 <= i < |s.goals| ==>
           step.state.goals[i] == (if s.goals[i].goalId == goalId then reply.data else s.goals[i])
    ensures !Unidentified(tguserId) && reply.Failed? ==> step.state == s.(error := Some(UpdateFailed))
  {
    if Unidentified(tguserId) then Step(s.(error := Some(UserNotFound)), [])
    else
      var c := UpdateGoal(tguserId, goalId, s.editedGoal, reply);
      match c.result
      case Ok(updated) =>
        Step(s.(goals := ReplaceById(s.goals, GoalKey, goalId, updated), editingGoalId := None, editedGoal := NoGoalFields), c.sent)
      case Err(_) => Step(s.(error := Some(UpdateFailed)), c.sent)
  }

  /** `handleDeleteGoal`. On success every goal with that id is gone and the
      rest keep their relative order; on failure only the error changes. */
  function HandleDeleteGoal(s: State, tguserId: int, goalId: int, reply: Reply<Message>): (step: Step)
    ensures Unidentified(tguserId) ==> step == Step(s.(error := Some(UserNotFound)), [])
    ensures !Unidentified(tguserId) ==>
      step.sent == [Request(Delete, Path(Collection, Some(goalId)), None, Some(tguserId))]
    ensures !Unidentified(tguserId) && reply.Delivered? ==>
      && step.state == s.(goals := step.state.goals)
      && IsSubsequence(step.state.goals, s.goals)
      && (forall i :: 0 <= i < |step.state.goals| ==> step.state.goals[i].goalId != goalId)
      && (forall i :: 0 <= i < |s.goals| && s.goals[i].goalId != goalId ==> s.goals[i] in step.state.goals)
      && (forall g :: multiset(step.state.goals)[g] == if g.goalId == goalId then 0 else multiset(s.goals)[g])
    ensures !Unidentified(tguserId) && reply.Failed? ==> step.state == s.(error := Some(DeleteFailed))
  {
    if Unidentified(tguserId) then Step(s.(error := Some(UserNotFound)), [])
    else
      var c := DeleteGoal(tguserId, goalId, reply);
      match c.result
      case Ok(_) => Step(s.(goals := RemoveById(s.goals, GoalKey, goalId)), c.sent)
      case Err(_) => Step(s.(error := Some(DeleteFailed)), c.sent)
  }

  /** The goals the server returns over a run of creates, in order. */
  function ServerGoals(entries: seq<(string, Goal)>): (goals: seq<Goal>)
    ensures |goals| == |entries|
  {
    seq(|entries|, i requires 0 <= i < |entries| => entries[i].1)
  }

  /** The user repeatedly types a description and submits the create form;
      the server accepts each goal, answering `entries[i].1`. */
  function CreateSession(s: State, tguserId: int, entries: seq<(string, Goal)>): State
    decreases |entries|
  {
    if entries == [] then s
    else
      var typed := EditNewGoalDescription(s, entries[0].0);
      CreateSession(HandleCreateGoal(typed, tguserId, Delivered(entries[0].1)).state, tguserId, entries[1..])
  }

  /** Over any run of successful creates from a positive goal number `n`,
      the goals are appended in server order, the form ends numbered
      `n + k` after `k` creates, and no error appears. */
  lemma {:induction false} CreateSessionNumbersConsecutively(s: State, tguserId: int, entries: seq<(string, Goal)>)
    requires !Unidentified(tguserId)
    requires s.newGoal.goalNumber.Some? && s.newGoal.goalNumber.value >= 1
    requires forall i :: 0 <= i < |entries| ==> entries[i].0 != ""
    ensures var s' := CreateSession(s, tguserId, entries);
      && s'.goals == s.goals + ServerGoals(entries)
      && s'.newGoal == (if entries == [] then s.newGoal else BlankForm(s.newGoal.goalNumber.value + |entries|))
      && s'.error == s.error
    decreases |entries|
  {
    if entries != [] {
      var n := s.newGoal.goalNumber.value;
      var typed := EditNewGoalDescription(s, entries[0].0);
      assert Creatable(typed.newGoal);
      var s1 := HandleCreateGoal(typed, tguserId, Delivered(entries[0].1)).state;
      assert s1.goals == s.goals + [entries[0].1];
      assert s1.newGoal == BlankForm(n + 1);
      CreateSessionNumbersConsecutively(s1, tguserId, entries[1..]);
      assert ServerGoals(entries) == [entries[0].1] + ServerGoals(entries[1..]);
    }
  }
}

=== FILE: goals.dfy ===
/** The goal gateway: CRUD calls on `/goals` for one Telegram user. */
module Goals {
  import opened Js
  import opened Http

  const Collection := "/goals"
  const MissingFields := "goal_number и goal_description обязательны."

  /** A goal as the server stores it. */
  datatype Goal = Goal(
    goalId: int,
    userId: int,
    goalNumber: int,
    goalType: Option<string>,
    goalDescription: string,
    startDate: Option<string>,
    endDate: Option<string>,
    importance: Option<int>,
    isCompleted: Option<bool>,
    isActive: Option<bool>,
    customField: Option<string>,
    createdAt: Option<string>,
    updatedAt: Option<string>)

  /** The create/update payload, every field optional. */
  datatype GoalData = GoalData(
    goalNumber: Option<int>,
    goalType: Option<string>,
    goalDescription: Option<string>,
    startDate: Option<string>,
    endDate: Option<string>,
    importance: Option<int>,
    isCompleted: Option<bool>,
    isActive: Option<bool>,
    customField: Option<string>)

  /** The empty patch `{}`. */
  const NoGoalFields := GoalData(None, None, None, None, None, None, None, None, None)

  function GoalKey(g: Goal): int { g.goalId }

  predicate Creatable(d: GoalData) {
    d.goalNumber.Some? && !FalsyString(d.goalDescription)
  }

  /** `fetchGoalsByUserId`: one GET carrying `tguser_id`. */
  function FetchGoalsByUserId(tguserId: int, reply: Reply<seq<Goal>>): (c: Call<seq<Goal>, GoalData>)
    ensures Relayed(c, Request(Get, Path(Collection, None), None, Some(tguserId)), reply)
  {
    Exchange(Request(Get, Path(Collection, None), None, Some(tguserId)), reply)
  }

  /** `createGoal`: rejects locally, with no request, when `goal_number` is
      undefined or `goal_description` is undefined or empty; otherwise posts
      the payload as given. */
  function CreateGoal(tguserId: int, goalData: GoalData, reply: Reply<Goal>): (c: Call<Goal, GoalData>)
    ensures Rejected(c) <==>
      goalData.goalNumber == None || goalData.goalDescription == None || goalData.goalDescription == Some("")
    ensures Rejected(c) ==> c.sent == [] && c.result.error.message == MissingFields
    ensures !Rejected(c) ==>
      Relayed(c, Request(Post, Path(Collection, None), Some(goalData), Some(tguserId)), reply)
  {
    if !Creatable(goalData) then Reject(MissingFields)
    else Exchange(Request(Post, Path(Collection, None), Some(goalData), Some(tguserId)), reply)
  }

  /** `updateGoal`: one PUT to `/goals/{goal_id}` carrying the partial payload unchanged. */
  function UpdateGoal(tguserId: int, goalId: int, goalData: GoalData, reply: Reply<Goal>): (c: Call<Goal, GoalData>)
    ensures Relayed(c, Request(Put, Path(Collection, Some(goalId)), Some(goalData), Some(tguserId)), reply)
  {
    Exchange(Request(Put, Path(Collection, Some(goalId)), Some(goalData), Some(tguserId)), reply)
  }

  /** `deleteGoal`: one DELETE to `/goals/{goal_id}` carrying `tguser_id`. */
  function DeleteGoal(tguserId: int, goalId: int, reply: Reply<Message>): (c: Call<Message, GoalData>)
    ensures Relayed(c, Request(Delete, Path(Collection, Some(goalId)), None, Some(tguserId)), reply)
  {
    Exchange(Request(Delete, Path(Collection, Some(goalId)), None, Some(tguserId)), reply)
  }
}

=== FILE: habit_list.dfy ===
/** The habits screen: the habit list with its loading flag and error
    string, the create form and the edit buffer. Unlike the goals screen,
    an error replaces the whole list view. */
module HabitListScreen {
  import opened Js
  import opened Http
  import opened Keyed
  import opened Identity
  import opened Habits

  const UserNotFound := "User not found"
  const LoadFailed := "Error loading habits"
  const CreateFailed := "Error creating habit"
  const UpdateFailed := "Error updating habit"
  const DeleteFailed := "Error deleting habit"

  datatype State = State(
    habits: seq<Habit>,
    loading: bool,
    error: Option<string>,
    newHabit: HabitData,
    editingHabitId: Option<int>,
    editedHabit: HabitData)

  /** A transition's resulting state and the requests it issued. */
  datatype Step = Step(state: State, sent: seq<Request<HabitData>>)

  /** What the screen shows. */
  datatype View = Spinner | ErrorText(text: string) | HabitsView(habits: seq<Habit>)

  /** The create form as first shown and as reset after a create. */
  function BlankForm(habitNumber: int): HabitData {
    HabitData(Some(habitNumber), Some(""), Some(""), Some(""), None, Some(true), Some(""))
  }

  /** The state on mount: nothing loaded yet, the spinner showing, habit number 1. */
  function Initial(): (s: State)
    ensures s.habits == [] && s.loading && s.error == None
    ensures s.newHabit.habitNumber == Some(1) && !Creatable(s.newHabit)
    ensures s.editingHabitId == None && s.editedHabit == NoHabitFields
  {
    State([], true, None, BlankForm(1), None, NoHabitFields)
  }

  /** The fetch effect: the fetched list or the load error, and the spinner stops. */
  function Load(s: State, tguserId: int, reply: Reply<seq<Habit>>): (step: Step)
    ensures !step.state.loading
    ensures step.state == s.(habits := step.state.habits, loading := false, error := step.state.error)
    ensures Unidentified(tguserId) ==>
      step.sent == [] && step.state.habits == s.habits && step.state.error == Some(UserNotFound)
    ensures !Unidentified(tguserId) ==>
      step.sent == [Request(Get, Path(Collection, None), None, Some(tguserId))]
    ensures !Unidentified(tguserId) && reply.Delivered? ==>
      step.state.habits == reply.data && step.state.error == s.error
    ensures !Unidentified(tguserId) && reply.Failed? ==>
      step.state.habits == s.habits && step.state.error == Some(LoadFailed)
  {
    if Unidentified(tguserId) then Step(s.(error := Some(UserNotFound), loading := false), [])
    else
      var c := FetchHabitsByUserId(tguserId, reply);
      match c.result
      case Ok(habits) => Step(s.(habits := habits, loading := false), c.sent)
      case Err(_) => Step(s.(error := Some(LoadFailed), loading := false), c.sent)
  }

  /** `handleCreateHabit`: a rejected form sends nothing; a successful create
      appends the server's habit and resets the form numbered `(n || 1) + 1`. */
  function HandleCreateHabit(s: State, tguserId: int, reply: Reply<Habit>): (step: Step)
    ensures Unidentified(tguserId) ==> step == Step(s.(error := Some(UserNotFound)), [])
    ensures !Unidentified(tguserId) && !Creatable(s.newHabit) ==>
      step == Step(s.(error := Some(CreateFailed)), [])
    ensures !Unidentified(tguserId) && Creatable(s.newHabit) ==>
      step.sent == [Request(Post, Path(Collection, None), Some(s.newHabit), Some(tguserId))]
    ensures !Unidentified(tguserId) && Creatable(s.newHabit) && reply.Delivered? ==>
      && step.state == s.(habits := step.state.habits, newHabit := step.state.newHabit)
      && |step.state.habits| == |s.habits| + 1
      && step.state.habits[..|s.habits|] == s.habits
      && step.state.habits[|s.habits|] == reply.data
      && step.state.newHabit == BlankForm(if s.newHabit.habitNumber == Some(0) then 2 else s.newHabit.habitNumber.value + 1)
    ensures !Unidentified(tguserId) && Creatable(s.newHabit) && reply.Failed? ==>
      step.state == s.(error := Some(CreateFailed))
  {
    if Unidentified(tguserId) then Step(s.(error := Some(UserNotFound)), [])
    else
      var c := CreateHabit(tguserId, s.newHabit, reply);
      match c.result
      case Ok(created) =>
        Step(s.(habits := s.habits + [created], newHabit := BlankForm(OrOnePlusOne(s.newHabit.habitNumber))), c.sent)
      case Err(_) => Step(s.(error := Some(CreateFailed)), c.sent)
  }

  /** `handleUpdateHabit`: on success the habits with that id are replaced in
      place and editing ends; on failure only the error changes. */
  function HandleUpdateHabit(s: State, tguserId: int, habitId: int, reply: Reply<Habit>): (step: Step)
    ensures Unidentified(tguserId) ==> step == Step(s.(error := Some(UserNotFound)), [])
    ensures !Unidentified(tguserId) ==>
      step.sent == [Request(Put, Path(Collection, Some(habitId)), Some(s.editedHabit), Some(tguserId))]
    ensures !Unidentified(tguserId) && reply.Delivered? ==>
      && step.state == s.(habits := step.state.habits, editingHabitId := None, editedHabit := NoHabitFields)
      && |step.state.habits| == |s.habits|
      && forall i :: 0 <= i < |s.habits| ==>
           step.state.habits[i] == (if s.habits[i].habitId == habitId then reply.data else s.habits[i])
    ensures !Unidentified(tguserId) && reply.Failed? ==> step.state == s.(error := Some(UpdateFailed))
  {
    if Unidentified(tguserId) then Step(s.(error := Some(UserNotFound)), [])
    else
      var c := UpdateHabit(tguserId, habitId, s.editedHabit, reply);
      match c.result
      case Ok(updated) =>
        Step(s.(habits := ReplaceById(s.habits, HabitKey, habitId, updated), editingHabitId := None, editedHabit := NoHabitFields), c.sent)
      case Err(_) => Step(s.(error := Some(UpdateFailed)), c.sent)
  }

  /** `handleDeleteHabit`: on success the habits with that id are gone and the
      rest keep their order; on failure only the error changes. */
  function HandleDeleteHabit(s: State, tguserId: int, habitId: int, reply: Reply<Message>): (step: Step)
    ensures Unidentified(tguserId) ==> step == Step(s.(error := Some(UserNotFound)), [])
    ensures !Unidentified(tguserId) ==>
      step.sent == [Request(Delete, Path(Collection, Some(habitId)), None, Some(tguserId))]
    ensures !Unidentified(tguserId) && reply.Delivered? ==>
      && step.state == s.(habits := step.state.habits)
      && IsSubsequence(step.state.habits, s.habits)
      && (forall i :: 0 <= i < |step.state.habits| ==> step.state.habits[i].habitId != habitId)
      && (forall i :: 0 <= i < |s.habits| && s.habits[i].habitId != habitId ==> s.habits[i] in step.state.habits)
      && (forall h :: multiset(step.state.habits)[h] == if h.habitId == habitId then 0 else multiset(s.habits)[h])
    ensures !Unidentified(tguserId) && reply.Failed? ==> step.state == s.(error := Some(DeleteFailed))
  {
    if Unidentified(tguserId) then Step(s.(error := Some(UserNotFound)), [])
    else
      var c := DeleteHabit(tguserId, habitId, reply);
      match c.result
      case Ok(_) => Step(s.(habits := RemoveById(s.habits, HabitKey, habitId)), c.sent)
      case Err(_) => Step(s.(error := Some(DeleteFailed)), c.sent)
  }

  /** The render: spinner while loading, then the error text if the error is
      truthy, else the list. */
  function Render(s: State): (v: View)
    ensures v.Spinner? <==> s.loading
    ensures v.ErrorText? <==> !s.loading && s.error.Some? && s.error.value != ""
    ensures v.ErrorText? ==> v.text == s.error.value
    ensures v.HabitsView? ==> v.habits == s.habits
  {
    if s.loading then Spinner
    else if s.error.Some? && s.error.value != "" then ErrorText(s.error.value)
    else HabitsView(s.habits)
  }

  /** One user or server event the screen reacts to. */
  datatype Event =
    | Fetched(habitsReply: Reply<seq<Habit>>)
    | Created(habitReply: Reply<Habit>)
    | Updated(habitId: int, habitReply: Reply<Habit>)
    | Deleted(habitId: int, messageReply: Reply<Message>)

  function Apply(s: State, tguserId: int, e: Event): State {
    match e
    case Fetched(r) => Load(s, tguserId, r).state
    case Created(r) => HandleCreateHabit(s, tguserId, r).state
    case Updated(id, r) => HandleUpdateHabit(s, tguserId, id, r).state
    case Deleted(id, r) => HandleDeleteHabit(s, tguserId, id, r).state
  }

  function Run(s: State, tguserId: int, events: seq<Event>): State
    decreases |events|
  {
    if events == [] then s else Run(Apply(s, tguserId, events[0]), tguserId, events[1..])
  }

  /** Nothing ever clears the error or turns the spinner back on, so once the
      error view is shown it replaces the list for every later event. */
  lemma {:induction false} ErrorViewIsPermanent(s: State, tguserId: int, events: seq<Event>)
    requires Render(s).ErrorText?
    ensures Render(Run(s, tguserId, events)).ErrorText?
    decreases |events|
  {
    if events != [] {
      var s1 := Apply(s, tguserId, events[0]);
      assert Render(s1).ErrorText?;
      ErrorViewIsPermanent(s1, tguserId, events[1..]);
    }
  }
}

=== FILE: habits.dfy ===
/** The habit gateway: CRUD calls on `/habits` for one Telegram user. */
module Habits {
  import opened Js
  import opened Http

  const Collection := "/habits"
  const MissingFields := "habit_number и habit_description обязательны."

  /** A habit as the server stores it. */
  datatype Habit = Habit(
    habitId: int,
    userId: int,
    habitNumber: int,
    habitDescription: string,
    habitType: Option<string>,
    startDate: Option<string>,
    importance: Option<int>,
    isActive: Option<bool>,
    customField: Option<string>,
    createdAt: Option<string>,
    updatedAt: Option<string>)

  /** The create/update payload, every field optional. */
  datatype HabitData = HabitData(
    habitNumber: Option<int>,
    habitDescription: Option<string>,
    habitType: Option<string>,
    startDate: Option<string>,
    importance: Option<int>,
    isActive: Option<bool>,
    customField: Option<string>)

  /** The empty patch `{}`. */
  const NoHabitFields := HabitData(None, None, None, None, None, None, None)

  function HabitKey(h: Habit): int { h.habitId }

  predicate Creatable(d: HabitData) {
    d.habitNumber.Some? && !FalsyString(d.habitDescription)
  }

  /** `fetchHabitsByUserId`: one GET carrying `tguser_id`. */
  function FetchHabitsByUserId(tguserId: int, reply: Reply<seq<Habit>>): (c: Call<seq<Habit>, HabitData>)
    ensures Relayed(c, Request(Get, Path(Collection, None), None, Some(tguserId)), reply)
  {
    Exchange(Request(Get, Path(Collection, None), None, Some(tguserId)), reply)
  }

  /** `createHabit`: rejects locally, with no request, when `habit_number`
      is undefined or `habit_description` is undefined or empty; otherwise
      posts the payload as given. */
  function CreateHabit(tguserId: int, habitData: HabitData, reply: Reply<Habit>): (c: Call<Habit, HabitData>)
    ensures Rejected(c) <==>
      habitData.habitNumber == None || habitData.habitDescription == None || habitData.habitDescription == Some("")
    ensures Rejected(c) ==> c.sent == [] && c.result.error.message == MissingFields
    ensures !Rejected(c) ==>
      Relayed(c, Request(Post, Path(Collection, None), Some(habitData), Some(tguserId)), reply)
  {
    if !Creatable(habitData) then Reject(MissingFields)
    else Exchange(Request(Post, Path(Collection, None), Some(habitData), Some(tguserId)), reply)
  }

  /** `updateHabit`: one PUT to `/habits/{habit_id}` carrying the partial payload unchanged. */
  function UpdateHabit(tguserId: int, habitId: int, habitData: HabitData, reply: Reply<Habit>): (c: Call<Habit, HabitData>)
    ensures Relayed(c, Request(Put, Path(Collection, Some(habitId)), Some(habitData), Some(tguserId)), reply)
  {
    Exchange(Request(Put, Path(Collection, Some(habitId)), Some(habitData), Some(tguserId)), reply)
  }

  /** `deleteHabit`: one DELETE to `/habits/{habit_id}` carrying `tguser_id`;
      the server's message is returned as-is. */
  function DeleteHabit(tguserId: int, habitId: int, reply: Reply<Message>): (c: Call<Message, HabitData>)
    ensures Relayed(c, Request(Delete, Path(Collection, Some(habitId)), None, Some(tguserId)), reply)
  {
    Exchange(Request(Delete, Path(Collection, Some(habitId)), None, Some(tguserId)), reply)
  }
}

=== FILE: http.dfy ===
/** The boundary to the REST service. The HTTP client itself is not part of
    this model: a gateway call records the requests it would issue and takes
    the server's answer as an input. */
module Http {
  import opened Js

  datatype Verb = Get | Post | Put | Delete

  /** `collection` alone, or `collection/{id}` when `id` is present. */
  datatype Path = Path(collection: string, id: Option<int>)

  /** One request: the payload (if any) and the `tguser_id` query parameter (if any). */
  datatype Request<B> = Request(verb: Verb, path: Path, body: Option<B>, tguserId: Option<int>)

  /** Whatever the client rejects with: a network failure or a non-2xx status. */
  datatype Fault = Fault(reason: string)

  /** The two kinds of thrown error: a local check that failed before any
      request, or a transport/server failure passed through unchanged. */
  datatype Error = ValidationError(message: string) | TransportError(fault: Fault)

  /** A resolved or rejected promise. */
  datatype Result<T> = Ok(value: T) | Err(error: Error)

  /** The server's answer to a request that was issued. */
  datatype Reply<T> = Delivered(data: T) | Failed(fault: Fault)

  /** The outcome of one gateway call and the requests it issued, in order. */
  datatype Call<T, B> = Call(result: Result<T>, sent: seq<Request<B>>)

  /** The body of a DELETE confirmation. */
  datatype Message = Message(message: string)

  /** Issues `request` and surfaces the answer. */
  function Exchange<T, B>(request: Request<B>, reply: Reply<T>): Call<T, B> {
    match reply
    case Delivered(data) => Call(Ok(data), [request])
    case Failed(fault) => Call(Err(TransportError(fault)), [request])
  }

  /** Throws a validation error without touching the network. */
  function Reject<T, B>(message: string): Call<T, B> {
    Call(Err(ValidationError(message)), [])
  }

  /** The call issued exactly `request` and returned the server's data
      as-is, or re-threw the server's fault unchanged. */
  predicate Relayed<T(==), B(==)>(c: Call<T, B>, request: Request<B>, reply: Reply<T>) {
    && c.sent == [request]
    && (reply.Delivered? ==> c.result == Ok(reply.data))
    && (reply.Failed? ==> c.result == Err(TransportError(reply.fault)))
  }

  /** The call threw a local validation error. */
  predicate Rejected<T, B>(c: Call<T, B>) {
    c.result.Err? && c.result.error.ValidationError?
  }
}

=== FILE: identity.dfy ===
/** How every screen obtains the `tguser_id` it passes to the gateways. */
module Identity {
  import opened Js

  /** The identifier used when the host supplies no Telegram user. */
  const FallbackUserId: int := 1148831907

  /** The user object the Telegram host exposes (`initDataUnsafe.user`). */
  datatype TelegramUser = TelegramUser(
    id: int,
    firstName: string,
    lastName: Option<string>,
    username: Option<string>,
    languageCode: Option<string>)

  /** `user ? Number(user.id) : 1148831907`. */
  function ResolveUserId(user: Option<TelegramUser>): (id: int)
    ensures user.Some? ==> id == user.value.id
    ensures user.None? ==> id == FallbackUserId && !Unidentified(id)
  {
    match user
    case Some(u) => u.id
    case None => FallbackUserId
  }

  /** `!tguser_id`: the guard the screens test before calling a gateway. */
  predicate Unidentified(tguserId: int) {
    tguserId == 0
  }
}

=== FILE: js.dfy ===
/** JavaScript value semantics the front-end relies on: optional fields,
    truthiness of strings and numbers, and `String.prototype.trim`. */
module Js {

  /** An optional property of a JavaScript object: `None` is `undefined`. */
  datatype Option<+T> = None | Some(value: T)

  /** `!s` for an optional string: `undefined` and `""` are falsy. */
  predicate FalsyString(s: Option<string>) {
    s.None? || s.value == ""
  }

  /** `!n` for an optional number: `undefined` and `0` are falsy (NaN is not modelled). */
  predicate FalsyNumber(n: Option<int>) {
    n.None? || n.value == 0
  }

  /** `!b` for an optional boolean: `undefined` and `false` are falsy. */
  predicate FalsyBool(b: Option<bool>) {
    b.None? || !b.value
  }

  /** `(n || 1) + 1`, the counter step of the create forms. */
  function OrOnePlusOne(n: Option<int>): int {
    if FalsyNumber(n) then 2 else n.value + 1
  }

  /** ECMAScript WhiteSpace and LineTerminator code points, the set `trim` removes. */
  predicate IsWhitespace(c: char) {
    || c == '\t' || c == '\n' || c == '\U{000B}' || c == '\U{000C}' || c == '\r'
    || c == ' ' || c == '\U{00A0}' || c == '\U{1680}'
    || ('\U{2000}' <= c <= '\U{200A}')
    || c == '\U{2028}' || c == '\U{2029}' || c == '\U{202F}' || c == '\U{205F}'
    || c == '\U{3000}' || c == '\U{FEFF}'
  }

  /** Drops the leading whitespace of `s`: the result is the suffix that
      starts at the first non-whitespace character. */
  function TrimStart(s: string): (r: string)
    ensures |r| <= |s| && r == s[|s| - |r|..]
    ensures forall k :: 0 <= k < |s| - |r| ==> IsWhitespace(s[k])
    ensures r == [] || !IsWhitespace(r[0])
  {
    if s != [] && IsWhitespace(s[0]) then TrimStart(s[1..]) else s
  }

  /** Drops the trailing whitespace of `s`: the result is the prefix that
      ends at the last non-whitespace character. */
  function TrimEnd(s: string): (r: string)
    ensures |r| <= |s| && r == s[..|r|]
    ensures forall k :: |r| <= k < |s| ==> IsWhitespace(s[k])
    ensures r == [] || !IsWhitespace(r[|r| - 1])
  {
    if s != [] && IsWhitespace(s[|s| - 1]) then TrimEnd(s[..|s| - 1]) else s
  }

  /** `s.trim()`: the contiguous middle of `s` left after removing whitespace
      at both ends; it is empty exactly when `s` is all whitespace. */
  function Trim(s: string): (r: string)
    ensures var lead := |s| - |TrimStart(s)|;
      && lead + |r| <= |s|
      && r == s[lead..lead + |r|]
      && (forall k :: 0 <= k < lead ==> IsWhitespace(s[k]))
      && (forall k :: lead + |r| <= k < |s| ==> IsWhitespace(s[k]))
    ensures r == [] <==> forall k :: 0 <= k < |s| ==> IsWhitespace(s[k])
    ensures r != [] ==> !IsWhitespace(r[0]) && !IsWhitespace(r[|r| - 1])
  {
    TrimIsMiddle(s);
    TrimEmptyIffBlank(s);
    TrimEndsAreSolid(s);
    TrimEnd(TrimStart(s))
  }

  /** What `Trim` keeps is a contiguous slice followed only by whitespace. */
  lemma TrimIsMiddle(s: string)
    ensures var t := TrimStart(s); var r := TrimEnd(t); var lead := |s| - |t|;
      && lead + |r| <= |s|
      && r == s[lead..lead + |r|]
      && (forall k :: lead + |r| <= k < |s| ==> IsWhitespace(s[k]))
  {
    var t := TrimStart(s);
    var r := TrimEnd(t);
    var lead := |s| - |t|;
    TrimSlice(s, t, r, lead);
    TrimTail(s, t, r, lead);
  }

  /** A prefix of the suffix from `lead` is the slice starting at `lead`. */
  lemma TrimSlice(s: string, t: string, r: string, lead: nat)
    requires lead <= |s| && t == s[lead..] && |r| <= |t| && r == t[..|r|]
    ensures lead + |r| <= |s| && r == s[lead..lead + |r|]
  {
  }

  /** Whitespace after the kept prefix of the suffix is whitespace after
      the kept slice of the whole text. */
  lemma TrimTail(s: string, t: string, r: string, lead: nat)
    requires lead <= |s| && t == s[lead..] && |r| <= |t|
    requires forall j :: |r| <= j < |t| ==> IsWhitespace(t[j])
    ensures forall k :: lead + |r| <= k < |s| ==> IsWhitespace(s[k])
  {
    forall k | lead + |r| <= k < |s|
      ensures IsWhitespace(s[k])
    {
      assert s[k] == t[k - lead];
    }
  }

  /** Trimming yields nothing exactly for all-whitespace text. */
  lemma TrimEmptyIffBlank(s: string)
    ensures TrimEnd(TrimStart(s)) == [] <==> forall k :: 0 <= k < |s| ==> IsWhitespace(s[k])
  {
  }

  /** A non-empty trim result has no whitespace at either end. */
  lemma TrimEndsAreSolid(s: string)
    ensures var r := TrimEnd(TrimStart(s));
      r != [] ==> !IsWhitespace(r[0]) && !IsWhitespace(r[|r| - 1])
  {
  }
}

=== FILE: keyed.dfy ===
/** Lists of records keyed by a numeric id, as the screens patch them after
    a successful update (`map` with an id test) or delete (`filter`). */
module Keyed {

  /** `ys` can be obtained from `xs` by deleting elements: same relative order. */
  predicate IsSubsequence<T(==)>(ys: seq<T>, xs: seq<T>)
    decreases |xs|
  {
    if ys == [] then true
    else if xs == [] then false
    else if ys[0] == xs[0] then IsSubsequence(ys[1..], xs[1..])
    else IsSubsequence(ys, xs[1..])
  }

  /** Dropping the head of a subsequence keeps it a subsequence. */
  lemma {:induction false} SubsequenceTail<T>(ys: seq<T>, xs: seq<T>)
    requires ys != [] && IsSubsequence(ys, xs)
    ensures IsSubsequence(ys[1..], xs)
    decreases |xs|, 0
  {
    if ys[0] == xs[0] {
      if ys[1..] != [] {
        SubsequenceCons(ys[1..], xs[0], xs[1..]);
      }
    } else {
      SubsequenceTail(ys, xs[1..]);
      if ys[1..] != [] {
        SubsequenceCons(ys[1..], xs[0], xs[1..]);
      }
    }
  }

  /** A subsequence of `xs` is a subsequence of `[x] + xs`. */
  lemma {:induction false} SubsequenceCons<T>(ys: seq<T>, x: T, xs: seq<T>)
    requires IsSubsequence(ys, xs)
    ensures IsSubsequence(ys, [x] + xs)
    decreases |xs|, 1
  {
    if ys != [] && ys[0] == x {
      assert ([x] + xs)[1..] == xs;
      SubsequenceTail(ys, xs);
    } else if ys != [] {
      assert ([x] + xs)[1..] == xs;
    }
  }

  /** `xs.map(x => key(x) === id ? r : x)`: every element whose key is `id`
      becomes `r`, every other element stays where it was. */
  function ReplaceById<T>(xs: seq<T>, key: T -> int, id: int, r: T): (ys: seq<T>)
    ensures |ys| == |xs|
    ensures forall i :: 0 <= i < |xs| ==> ys[i] == (if key(xs[i]) == id then r else xs[i])
  {
    if xs == [] then []
    else [if key(xs[0]) == id then r else xs[0]] + ReplaceById(xs[1..], key, id, r)
  }

  /** `xs.filter(x => key(x) !== id)`: exactly the elements whose key is not
      `id`, in their original relative order. */
  function RemoveById<T(==,!new)>(xs: seq<T>, key: T -> int, id: int): (ys: seq<T>)
    ensures |ys| <= |xs|
    ensures forall i :: 0 <= i < |ys| ==> ys[i] in xs && key(ys[i]) != id
    ensures forall i :: 0 <= i < |xs| && key(xs[i]) != id ==> xs[i] in ys
    ensures forall x :: multiset(ys)[x] == if key(x) == id then 0 else multiset(xs)[x]
    ensures IsSubsequence(ys, xs)
  {
    if xs == [] then []
    else
      var rest := RemoveById(xs[1..], key, id);
      RemoveCountsStep(xs, rest, key, id);
      if key(xs[0]) == id then
        SubsequenceCons(rest, xs[0], xs[1..]);
        assert [xs[0]] + xs[1..] == xs;
        rest
      else
        assert [xs[0]] + xs[1..] == xs;
        [xs[0]] + rest
  }

  /** One step of the filter keeps the multiplicities right: if `rest` has
      the counts of the filtered tail, then dropping or keeping the head
      gives the counts of the filtered whole. */
  lemma RemoveCountsStep<T(!new)>(xs: seq<T>, rest: seq<T>, key: T -> int, id: int)
    requires xs != []
    requires forall x :: multiset(rest)[x] == if key(x) == id then 0 else multiset(xs[1..])[x]
    ensures var ys := if key(xs[0]) == id then rest else [xs[0]] + rest;
      forall x :: multiset(ys)[x] == if key(x) == id then 0 else multiset(xs)[x]
  {
    assert xs == [xs[0]] + xs[1..];
    assert multiset(xs) == multiset{xs[0]} + multiset(xs[1..]);
    assert multiset([xs[0]] + rest) == multiset{xs[0]} + multiset(rest);
  }

  /** Filtering distributes over concatenation, so the survivors of each
      part keep their order and the parts stay in order. */
  lemma {:induction false} RemoveByIdAppend<T(!new)>(xs: seq<T>, ys: seq<T>, key: T -> int, id: int)
    ensures RemoveById(xs + ys, key, id) == RemoveById(xs, key, id) + RemoveById(ys, key, id)
  {
    if xs == [] {
      assert xs + ys == ys;
    } else {
      assert (xs + ys)[1..] == xs[1..] + ys;
      RemoveByIdAppend(xs[1..], ys, key, id);
    }
  }

  /** A filter that matches nothing leaves the list as it was. */
  lemma {:induction false} RemoveByIdAbsent<T(!new)>(xs: seq<T>, key: T -> int, id: int)
    requires forall i :: 0 <= i < |xs| ==> key(xs[i]) != id
    ensures RemoveById(xs, key, id) == xs
  {
    if xs != [] {
      RemoveByIdAbsent(xs[1..], key, id);
    }
  }
}

=== FILE: notification_form.dfy ===
/** The notification-setting form: its field state, the change and submit
    handlers, and what happens when its submission reaches the page. */
module NotificationForm {
  import opened Js
  import opened Http
  import opened Notifications
  import NotificationSettingsScreen

  /** The three text fields cleared, every other field absent. */
  const EmptyForm := NotificationSettingData(Some(""), None, None, Some(""), Some(""), None, None, None)

  /** The names of the controls the form renders: a select for the item
      type and a text input for the reminder times. There is no control for
      the reminder type. */
  const InputNames: set<string> := {"item_type", "reminder_times"}

  /** `initialData || {item_type: '', reminder_type: '', reminder_times: ''}`. */
  function InitialForm(initialData: Option<NotificationSettingData>): (d: NotificationSettingData)
    ensures initialData.Some? ==> d == initialData.value
    ensures initialData.None? ==>
      d.itemType == Some("") && d.reminderType == Some("") && d.reminderTimes == Some("")
    ensures initialData.None? ==>
      d.taskId == None && d.scheduleId == None && d.isActive == None
      && d.isPendingAcknowledgment == None && d.lastMessageId == None
  {
    match initialData
    case Some(data) => data
    case None => EmptyForm
  }

  /** `handleChange`: `{...prev, [name]: value}`. Only the named field moves. */
  function HandleChange(d: NotificationSettingData, name: string, value: string): (d': NotificationSettingData)
    ensures name == "item_type" ==> d' == d.(itemType := Some(value))
    ensures name == "reminder_type" ==> d' == d.(reminderType := Some(value))
    ensures name == "reminder_times" ==> d' == d.(reminderTimes := Some(value))
    ensures name != "item_type" && name != "reminder_type" && name != "reminder_times" ==> d' == d
  {
    if name == "item_type" then d.(itemType := Some(value))
    else if name == "reminder_type" then d.(reminderType := Some(value))
    else if name == "reminder_times" then d.(reminderTimes := Some(value))
    else d
  }

  /** What `handleSubmit` hands to `onSubmit`, and the form state after it. */
  datatype Submission = Submission(submitted: NotificationSettingData, next: NotificationSettingData)

  /** `handleSubmit`: passes the current data on, then clears all three fields. */
  function HandleSubmit(d: NotificationSettingData): (r: Submission)
    ensures r.submitted == d
    ensures r.next.itemType == Some("") && r.next.reminderType == Some("") && r.next.reminderTimes == Some("")
    ensures r.next.taskId == None && r.next.scheduleId == None && r.next.isActive == None
      && r.next.isPendingAcknowledgment == None && r.next.lastMessageId == None
  {
    Submission(d, EmptyForm)
  }

  /** A change event from one of the form's controls. */
  datatype Input = Input(name: string, value: string)

  /** The form state after the user works the controls in order. */
  function Fill(d: NotificationSettingData, inputs: seq<Input>): NotificationSettingData
    decreases |inputs|
  {
    if inputs == [] then d else Fill(HandleChange(d, inputs[0].name, inputs[0].value), inputs[1..])
  }

  /** No sequence of events from the rendered controls touches `reminder_type`. */
  lemma {:induction false} FillKeepsReminderType(d: NotificationSettingData, inputs: seq<Input>)
    requires forall i :: 0 <= i < |inputs| ==> inputs[i].name in InputNames
    ensures Fill(d, inputs).reminderType == d.reminderType
    decreases |inputs|
  {
    if inputs != [] {
      FillKeepsReminderType(HandleChange(d, inputs[0].name, inputs[0].value), inputs[1..]);
    }
  }

  /** A form mounted without `initialData` can never produce a setting the
      gateway accepts: whatever the user enters, the submission is rejected
      locally, no request leaves, and the page's list does not change. */
  lemma {:induction false} FormSubmissionAlwaysRejected(page: NotificationSettingsScreen.State, tguserId: int, inputs: seq<Input>, reply: Reply<NotificationSetting>)
    requires forall i :: 0 <= i < |inputs| ==> inputs[i].name in InputNames
    ensures var submitted := HandleSubmit(Fill(InitialForm(None), inputs)).submitted;
      && Rejected(CreateNotificationSetting(tguserId, submitted, reply))
      && NotificationSettingsScreen.HandleCreate(page, tguserId, submitted, reply)
           == NotificationSettingsScreen.Step(page, [])
  {
    FillKeepsReminderType(InitialForm(None), inputs);
  }
}

=== FILE: notification_page.dfy ===
/** The notification-settings page: the settings list and its loading flag.
    It has no error state: every failure is only logged. */
module NotificationSettingsScreen {
  import opened Js
  import opened Http
  import opened Keyed
  import opened Notifications

  datatype State = State(settings: seq<NotificationSetting>, loading: bool)

  /** A transition's resulting state and the requests it issued. */
  datatype Step = Step(state: State, sent: seq<Request<NotificationSettingData>>)

  function Initial(): (s: State)
    ensures s.settings == [] && s.loading
  {
    State([], true)
  }

  /** The fetch effect. There is no user-id guard; a failed fetch keeps the
      list as it was (empty on mount) and only the loading flag changes. */
  function Load(s: State, tguserId: int, reply: Reply<seq<NotificationSetting>>): (step: Step)
    ensures !step.state.loading
    ensures step.sent == [Request(Get, Path(Collection, None), None, Some(tguserId))]
    ensures reply.Delivered? ==> step.state.settings == reply.data
    ensures reply.Failed? ==> step.state == s.(loading := false)
  {
    var c := FetchNotificationSettingsByUserId(tguserId, reply);
    match c.result
    case Ok(settings) => Step(State(settings, false), c.sent)
    case Err(_) => Step(s.(loading := false), c.sent)
  }

  /** `handleCreate`: a setting the gateway rejects changes nothing and sends
      nothing; an accepted one is posted and, on success, appended. */
  function HandleCreate(s: State, tguserId: int, newSetting: NotificationSettingData, reply: Reply<NotificationSetting>): (step: Step)
    ensures !Creatable(newSetting) ==> step == Step(s, [])
    ensures Creatable(newSetting) ==>
      step.sent == [Request(Post, Path(Collection, None), Some(newSetting), Some(tguserId))]
    ensures Creatable(newSetting) && reply.Delivered? ==>
      && step.state == s.(settings := step.state.settings)
      && |step.state.settings| == |s.settings| + 1
      && step.state.settings[..|s.settings|] == s.settings
      && step.state.settings[|s.settings|] == reply.data
    ensures reply.Failed? ==> step.state == s
  {
    var c := CreateNotificationSetting(tguserId, newSetting, reply);
    match c.result
    case Ok(created) => Step(s.(settings := s.settings + [created]), c.sent)
    case Err(_) => Step(s, c.sent)
  }

  /** `handleUpdate`: the patch is handed to the gateway, which drops it; on
      success the settings with that id are replaced in place. */
  function HandleUpdate(s: State, tguserId: int, settingId: int, updatedData: NotificationSettingData, reply: Reply<NotificationSetting>): (step: Step)
    ensures step.sent == [Request(Put, Path(Collection, Some(settingId)), None, None)]
    ensures reply.Delivered? ==>
      && step.state == s.(settings := step.state.settings)
      && |step.state.settings| == |s.settings|
      && forall i :: 0 <= i < |s.settings| ==>
           step.state.settings[i] == (if s.settings[i].settingId == settingId then reply.data else s.settings[i])
    ensures reply.Failed? ==> step.state == s
  {
    var c := UpdateNotificationSetting(tguserId, settingId, updatedData, reply);
    match c.result
    case Ok(updated) => Step(s.(settings := ReplaceById(s.settings, SettingKey, settingId, updated)), c.sent)
    case Err(_) => Step(s, c.sent)
  }

  /** `handleDelete`: on success the settings with that id are gone and the
      rest keep their order. */
  function HandleDelete(s: State, tguserId: int, settingId: int, reply: Reply<Message>): (step: Step)
    ensures step.sent == [Request(Delete, Path(Collection, Some(settingId)), None, None)]
    ensures reply.Delivered? ==>
      && step.state == s.(settings := step.state.settings)
      && IsSubsequence(step.state.settings, s.settings)
      && (forall i :: 0 <= i < |step.state.settings| ==> step.state.settings[i].settingId != settingId)
      && (forall i :: 0 <= i < |s.settings| && s.settings[i].settingId != settingId ==> s.settings[i] in step.state.settings)
      && (forall n :: multiset(step.state.settings)[n] == if n.settingId == settingId then 0 else multiset(s.settings)[n])
    ensures reply.Failed? ==> step.state == s
  {
    var c := DeleteNotificationSetting(tguserId, settingId, reply);
    match c.result
    case Ok(_) => Step(s.(settings := RemoveById(s.settings, SettingKey, settingId)), c.sent)
    case Err(_) => Step(s, c.sent)
  }
}

=== FILE: notifications.dfy ===
/** The notification-settings gateway: CRUD calls on `/notifications`. */
module Notifications {
  import opened Js
  import opened Http

  const Collection := "/notifications"
  const MissingFields := "item_type, reminder_type и reminder_times обязательны."

  /** A notification setting as the server stores it. */
  datatype NotificationSetting = NotificationSetting(
    settingId: int,
    userId: int,
    itemType: string,
    taskId: Option<int>,
    scheduleId: Option<int>,
    reminderType: string,
    reminderTimes: string,
    sentTimes: Option<string>,
    isActive: bool,
    isPendingAcknowledgment: bool,
    lastMessageId: Option<int>,
    createdAt: Option<string>,
    updatedAt: Option<string>)

  /** The create/update payload, every field optional. */
  datatype NotificationSettingData = NotificationSettingData(
    itemType: Option<string>,
    taskId: Option<int>,
    scheduleId: Option<int>,
    reminderType: Option<string>,
    reminderTimes: Option<string>,
    isActive: Option<bool>,
    isPendingAcknowledgment: Option<bool>,
    lastMessageId: Option<int>)

  function SettingKey(s: NotificationSetting): int { s.settingId }

  predicate Creatable(d: NotificationSettingData) {
    !FalsyString(d.itemType) && !FalsyString(d.reminderType) && !FalsyString(d.reminderTimes)
  }

  /** `fetchNotificationSettingsByUserId`: one GET carrying `tguser_id`. */
  function FetchNotificationSettingsByUserId(tguserId: int, reply: Reply<seq<NotificationSetting>>)
    : (c: Call<seq<NotificationSetting>, NotificationSettingData>)
    ensures Relayed(c, Request(Get, Path(Collection, None), None, Some(tguserId)), reply)
  {
    Exchange(Request(Get, Path(Collection, None), None, Some(tguserId)), reply)
  }

  /** `createNotificationSetting`: rejects locally, with no request, as soon
      as any one of `item_type`, `reminder_type` and `reminder_times` is
      undefined or empty; otherwise posts the payload with `tguser_id`. */
  function CreateNotificationSetting(tguserId: int, notificationData: NotificationSettingData, reply: Reply<NotificationSetting>)
    : (c: Call<NotificationSetting, NotificationSettingData>)
    ensures Rejected(c) <==>
      || notificationData.itemType == None || notificationData.itemType == Some("")
      || notificationData.reminderType == None || notificationData.reminderType == Some("")
      || notificationData.reminderTimes == None || notificationData.reminderTimes == Some("")
    ensures Rejected(c) ==> c.sent == [] && c.result.error.message == MissingFields
    ensures !Rejected(c) ==>
      Relayed(c, Request(Post, Path(Collection, None), Some(notificationData), Some(tguserId)), reply)
  {
    if !Creatable(notificationData) then Reject(MissingFields)
    else Exchange(Request(Post, Path(Collection, None), Some(notificationData), Some(tguserId)), reply)
  }

  /** `updateNotificationSetting`: a bare PUT to `/notifications/{setting_id}`.
      The payload and `tguser_id` it is given are never sent. */
  function UpdateNotificationSetting(tguserId: int, settingId: int, notificationData: NotificationSettingData, reply: Reply<NotificationSetting>)
    : (c: Call<NotificationSetting, NotificationSettingData>)
    ensures |c.sent| == 1 && c.sent[0].body == None && c.sent[0].tguserId == None
    ensures Relayed(c, Request(Put, Path(Collection, Some(settingId)), None, None), reply)
  {
    Exchange(Request(Put, Path(Collection, Some(settingId)), None, None), reply)
  }

  /** `deleteNotificationSetting`: a DELETE to `/notifications/{setting_id}`
      with no `tguser_id` parameter. */
  function DeleteNotificationSetting(tguserId: int, settingId: int, reply: Reply<Message>)
    : (c: Call<Message, NotificationSettingData>)
    ensures |c.sent| == 1 && c.sent[0].tguserId == None
    ensures Relayed(c, Request(Delete, Path(Collection, Some(settingId)), None, None), reply)
  {
    Exchange(Request(Delete, Path(Collection, Some(settingId)), None, None), reply)
  }
}

=== FILE: schedules.dfy ===
/** The schedule gateway: CRUD calls on `/schedules` for one Telegram user. */
module Schedules {
  import opened Js
  import opened Http

  const Collection := "/schedules"
  const MissingFields := "activity, date и time_frame обязательны."

  /** A schedule entry as the server stores it. */
  datatype Schedule = Schedule(
    scheduleId: int,
    userId: int,
    activity: string,
    date: string,
    timeFrame: string,
    isRecurring: Option<bool>,
    importance: Option<int>,
    isCompleted: Option<bool>,
    customField: Option<string>,
    createdAt: Option<string>,
    updatedAt: Option<string>)

  /** The create/update payload, every field optional. */
  datatype ScheduleData = ScheduleData(
    activity: Option<string>,
    date: Option<string>,
    timeFrame: Option<string>,
    isRecurring: Option<bool>,
    importance: Option<int>,
    isCompleted: Option<bool>,
    customField: Option<string>)

  predicate Creatable(d: ScheduleData) {
    !FalsyString(d.activity) && !FalsyString(d.date) && !FalsyString(d.timeFrame)
  }

  /** `fetchSchedulesByUserId`: one GET carrying `tguser_id`. */
  function FetchSchedulesByUserId(tguserId: int, reply: Reply<seq<Schedule>>): (c: Call<seq<Schedule>, ScheduleData>)
    ensures Relayed(c, Request(Get, Path(Collection, None), None, Some(tguserId)), reply)
  {
    Exchange(Request(Get, Path(Collection, None), None, Some(tguserId)), reply)
  }

  /** `createSchedule`: rejects locally, with no request, as soon as any one
      of `activity`, `date` and `time_frame` is undefined or empty;
      otherwise posts the payload as given. */
  function CreateSchedule(tguserId: int, scheduleData: ScheduleData, reply: Reply<Schedule>): (c: Call<Schedule, ScheduleData>)
    ensures Rejected(c) <==>
      || scheduleData.activity == None || scheduleData.activity == Some("")
      || scheduleData.date == None || scheduleData.date == Some("")
      || scheduleData.timeFrame == None || scheduleData.timeFrame == Some("")
    ensures Rejected(c) ==> c.sent == [] && c.result.error.message == MissingFields
    ensures !Rejected(c) ==>
      Relayed(c, Request(Post, Path(Collection, None), Some(scheduleData), Some(tguserId)), reply)
  {
    if !Creatable(scheduleData) then Reject(MissingFields)
    else Exchange(Request(Post, Path(Collection, None), Some(scheduleData), Some(tguserId)), reply)
  }

  /** `updateSchedule`: one PUT to `/schedules/{schedule_id}` carrying the partial payload unchanged. */
  function UpdateSchedule(tguserId: int, scheduleId: int, scheduleData: ScheduleData, reply: Reply<Schedule>): (c: Call<Schedule, ScheduleData>)
    ensures Relayed(c, Request(Put, Path(Collection, Some(scheduleId)), Some(scheduleData), Some(tguserId)), reply)
  {
    Exchange(Request(Put, Path(Collection, Some(scheduleId)), Some(scheduleData), Some(tguserId)), reply)
  }

  /** `deleteSchedule`: one DELETE to `/schedules/{schedule_id}` carrying `tguser_id`. */
  function DeleteSchedule(tguserId: int, scheduleId: int, reply: Reply<Message>): (c: Call<Message, ScheduleData>)
    ensures Relayed(c, Request(Delete, Path(Collection, Some(scheduleId)), None, Some(tguserId)), reply)
  {
    Exchange(Request(Delete, Path(Collection, Some(scheduleId)), None, Some(tguserId)), reply)
  }
}

=== FILE: task_list.dfy ===
/** The task list component: tasks, the new-task input, the loading flag
    and the error string. Its handlers silently do nothing without a user
    id, and an error replaces the whole list. */
module TaskListScreen {
  import opened Js
  import opened Http
  import opened Keyed
  import opened Identity
  import opened Tasks

  const UserNotFound := "User not found"
  const LoadFailed := "Error loading tasks"
  const CreateFailed := "Error creating task"
  const UpdateFailed := "Error updating task"
  const DeleteFailed := "Error deleting task"

  datatype State = State(
    tasks: seq<Task>,
    newTaskDescription: string,
    isLoading: bool,
    error: Option<string>)

  /** A transition's resulting state and the requests it issued. */
  datatype Step = Step(state: State, sent: seq<Request<TaskData>>)

  /** What the component shows. */
  datatype View = Spinner | ErrorText(text: string) | TasksView(tasks: seq<Task>)

  function Initial(): (s: State)
    ensures s.tasks == [] && s.newTaskDescription == "" && s.isLoading && s.error == None
  {
    State([], "", true, None)
  }

  /** The fetch effect: the fetched list or the load error, and the spinner stops. */
  function Load(s: State, tguserId: int, reply: Reply<seq<Task>>): (step: Step)
    ensures !step.state.isLoading
    ensures step.state.newTaskDescription == s.newTaskDescription
    ensures Unidentified(tguserId) ==>
      step.sent == [] && step.state.tasks == s.tasks && step.state.error == Some(UserNotFound)
    ensures !Unidentified(tguserId) ==>
      step.sent == [Request(Get, Path(Collection, None), None, Some(tguserId))]
    ensures !Unidentified(tguserId) && reply.Delivered? ==>
      step.state.tasks == reply.data && step.state.error == s.error
    ensures !Unidentified(tguserId) && reply.Failed? ==>
      step.state.tasks == s.tasks && step.state.error == Some(LoadFailed)
  {
    if Unidentified(tguserId) then Step(s.(error := Some(UserNotFound), isLoading := false), [])
    else
      var c := FetchTasksByUserId(tguserId, reply);
      match c.result
      case Ok(tasks) => Step(s.(tasks := tasks, isLoading := false), c.sent)
      case Err(_) => Step(s.(error := Some(LoadFailed), isLoading := false), c.sent)
  }

  /** The payload `handleCreateTask` builds: the next position and the trimmed text. */
  function NewTaskData(s: State): TaskData {
    NoTaskFields.(taskNumber := Some(|s.tasks| + 1), taskDescription := Some(Trim(s.newTaskDescription)))
  }

  /** The fetch effect over one mount. The host user is not known on the
      first render, so the effect first runs with the fallback id; it runs
      again, with the host user's id, only when that id differs. Nothing
      clears the error in between, so a failed first fetch leaves the error
      set even when the second one succeeds. */
  function Mount(host: Option<TelegramUser>, first: Reply<seq<Task>>, second: Reply<seq<Task>>): (step: Step)
    ensures |step.sent| >= 1
    ensures step.sent[0] == Request(Get, Path(Collection, None), None, Some(FallbackUserId))
    ensures (host.None? || host.value.id == FallbackUserId) ==>
      step == Load(Initial(), FallbackUserId, first)
    ensures host.Some? && host.value.id != FallbackUserId && !Unidentified(host.value.id) ==>
      && step.sent == [Request(Get, Path(Collection, None), None, Some(FallbackUserId)),
                       Request(Get, Path(Collection, None), None, Some(host.value.id))]
      && !step.state.isLoading
      && step.state.tasks == (if second.Delivered? then second.data else if first.Delivered? then first.data else [])
      && step.state.error == (if first.Failed? || second.Failed? then Some(LoadFailed) else None)
    ensures host.Some? && Unidentified(host.value.id) ==>
      |step.sent| == 1 && !step.state.isLoading && step.state.error == Some(UserNotFound)
  {
    var once := Load(Initial(), ResolveUserId(None), first);
    var id := ResolveUserId(host);
    if id == FallbackUserId then once
    else
      var again := Load(once.state, id, second);
      Step(again.state, once.sent + again.sent)
  }

  /** `handleCreateTask`. An input that is all whitespace does nothing at
      all. Otherwise the task numbered `|tasks| + 1` with the trimmed text is
      posted (the gateway never rejects it); on success it is appended and
      the input cleared, on failure only the error changes. */
  function HandleCreateTask(s: State, tguserId: int, reply: Reply<Task>): (step: Step)
    ensures Unidentified(tguserId) || Trim(s.newTaskDescription) == "" ==> step == Step(s, [])
    ensures !Unidentified(tguserId) && Trim(s.newTaskDescription) != "" ==>
      && step.sent == [Request(Post, Path(Collection, None),
                               Some(NoTaskFields.(taskNumber := Some(|s.tasks| + 1),
                                                  taskDescription := Some(Trim(s.newTaskDescription)))),
                               Some(tguserId))]
      && (reply.Delivered? ==> step.state == s.(tasks := s.tasks + [reply.data], newTaskDescription := ""))
      && (reply.Failed? ==> step.state == s.(error := Some(CreateFailed)))
  {
    if Unidentified(tguserId) || Trim(s.newTaskDescription) == "" then Step(s, [])
    else
      var c := CreateTask(tguserId, NewTaskData(s), reply);
      match c.result
      case Ok(created) => Step(s.(tasks := s.tasks + [created], newTaskDescription := ""), c.sent)
      case Err(_) => Step(s.(error := Some(CreateFailed)), c.sent)
  }

  /** The shared tail of toggle and edit: send `patch` for `task`, then
      replace the tasks with its id by the server's answer. */
  function PatchTask(s: State, tguserId: int, task: Task, patch: TaskData, reply: Reply<Task>): Step {
    if Unidentified(tguserId) then Step(s, [])
    else
      var c := UpdateTask(tguserId, task.taskId, patch, reply);
      match c.result
      case Ok(updated) => Step(s.(tasks := ReplaceById(s.tasks, TaskKey, task.taskId, updated)), c.sent)
      case Err(_) => Step(s.(error := Some(UpdateFailed)), c.sent)
  }

  /** `handleToggleComplete`: the patch holds only `is_completed`, the
      negation of the task's flag (an absent flag counts as false). */
  function HandleToggleComplete(s: State, tguserId: int, task: Task, reply: Reply<Task>): (step: Step)
    ensures Unidentified(tguserId) ==> step == Step(s, [])
    ensures !Unidentified(tguserId) ==>
      step.sent == [Request(Put, Path(Collection, Some(task.taskId)),
                            Some(NoTaskFields.(isCompleted := Some(task.isCompleted != Some(true)))), Some(tguserId))]
    ensures !Unidentified(tguserId) && reply.Delivered? ==>
      && step.state == s.(tasks := step.state.tasks)
      && |step.state.tasks| == |s.tasks|
      && forall i :: 0 <= i < |s.tasks| ==>
           step.state.tasks[i] == (if s.tasks[i].taskId == task.taskId then reply.data else s.tasks[i])
    ensures !Unidentified(tguserId) && reply.Failed? ==> step.state == s.(error := Some(UpdateFailed))
  {
    PatchTask(s, tguserId, task, NoTaskFields.(isCompleted := Some(FalsyBool(task.isCompleted))), reply)
  }

  /** `handleEditTask`: the patch holds only the new description, untrimmed. */
  function HandleEditTask(s: State, tguserId: int, task: Task, newDescription: string, reply: Reply<Task>): (step: Step)
    ensures Unidentified(tguserId) ==> step == Step(s, [])
    ensures !Unidentified(tguserId) ==>
      step.sent == [Request(Put, Path(Collection, Some(task.taskId)),
                            Some(NoTaskFields.(taskDescription := Some(newDescription))), Some(tguserId))]
    ensures !Unidentified(tguserId) && reply.Delivered? ==>
      && step.state == s.(tasks := step.state.tasks)
      && |step.state.tasks| == |s.tasks|
      && forall i :: 0 <= i < |s.tasks| ==>
           step.state.tasks[i] == (if s.tasks[i].taskId == task.taskId then reply.data else s.tasks[i])
    ensures !Unidentified(tguserId) && reply.Failed? ==> step.state == s.(error := Some(UpdateFailed))
  {
    PatchTask(s, tguserId, task, NoTaskFields.(taskDescription := Some(newDescription)), reply)
  }

  /** `handleDeleteTask`: on success the tasks with that id are gone and the
      rest keep their order; on failure only the error changes. */
  function HandleDeleteTask(s: State, tguserId: int, taskId: int, reply: Reply<Message>): (step: Step)
    ensures Unidentified(tguserId) ==> step == Step(s, [])
    ensures !Unidentified(tguserId) ==>
      step.sent == [Request(Delete, Path(Collection, Some(taskId)), None, Some(tguserId))]
    ensures !Unidentified(tguserId) && reply.Delivered? ==>
      && step.state == s.(tasks := step.state.tasks)
      && IsSubsequence(step.state.tasks, s.tasks)
      && (forall i :: 0 <= i < |step.state.tasks| ==> step.state.tasks[i].taskId != taskId)
      && (forall i :: 0 <= i < |s.tasks| && s.tasks[i].taskId != taskId ==> s.tasks[i] in step.state.tasks)
      && (forall t :: multiset(step.state.tasks)[t] == if t.taskId == taskId then 0 else multiset(s.tasks)[t])
    ensures !Unidentified(tguserId) && reply.Failed? ==> step.state == s.(error := Some(DeleteFailed))
  {
    if Unidentified(tguserId) then Step(s, [])
    else
      var c := DeleteTask(tguserId, taskId, reply);
      match c.result
      case Ok(_) => Step(s.(tasks := RemoveById(s.tasks, TaskKey, taskId)), c.sent)
      case Err(_) => Step(s.(error := Some(DeleteFailed)), c.sent)
  }

  /** A failed fallback fetch hides the host user's tasks: the second fetch
      stores them, but the render still shows the load error. */
  lemma FailedFallbackHidesTasks(host: TelegramUser, first: Reply<seq<Task>>, tasks: seq<Task>)
    requires host.id != FallbackUserId && !Unidentified(host.id) && first.Failed?
    ensures var s := Mount(Some(host), first, Delivered(tasks)).state;
      s.tasks == tasks && Render(s) == ErrorText(LoadFailed)
  {
  }

  /** The render: spinner while loading, then the error text if the error is
      truthy, and the list only when there is none. */
  function Render(s: State): (v: View)
    ensures v.Spinner? <==> s.isLoading
    ensures v.ErrorText? <==> !s.isLoading && s.error.Some? && s.error.value != ""
    ensures v.ErrorText? ==> v.text == s.error.value
    ensures v.TasksView? ==> v.tasks == s.tasks
  {
    if s.isLoading then Spinner
    else if s.error.Some? && s.error.value != "" then ErrorText(s.error.value)
    else TasksView(s.tasks)
  }
}

=== FILE: tasks.dfy ===
/** The task gateway: CRUD calls on `/tasks` for one Telegram user. */
module Tasks {
  import opened Js
  import opened Http

  const Collection := "/tasks"
  const MissingFields := "task_number и task_description обязательны."

  /** A task as the server stores it. */
  datatype Task = Task(
    taskId: int,
    userId: int,
    taskNumber: int,
    taskDescription: string,
    priority: Option<string>,
    status: Option<string>,
    importance: Option<int>,
    isCompleted: Option<bool>,
    customField: Option<string>,
    createdAt: Option<string>,
    updatedAt: Option<string>)

  /** The create/update payload. Every field is optional because callers
      build it from partially filled forms and partial patches. */
  datatype TaskData = TaskData(
    taskNumber: Option<int>,
    taskDescription: Option<string>,
    priority: Option<string>,
    status: Option<string>,
    importance: Option<int>,
    isCompleted: Option<bool>,
    customField: Option<string>)

  /** The empty patch `{}`. */
  const NoTaskFields := TaskData(None, None, None, None, None, None, None)

  function TaskKey(t: Task): int { t.taskId }

  /** Both mandatory fields are present and truthy where the check tests truthiness. */
  predicate Creatable(d: TaskData) {
    d.taskNumber.Some? && !FalsyString(d.taskDescription)
  }

  /** `fetchTasksByUserId`: one GET carrying `tguser_id`. */
  function FetchTasksByUserId(tguserId: int, reply: Reply<seq<Task>>): (c: Call<seq<Task>, TaskData>)
    ensures Relayed(c, Request(Get, Path(Collection, None), None, Some(tguserId)), reply)
  {
    Exchange(Request(Get, Path(Collection, None), None, Some(tguserId)), reply)
  }

  /** `createTask`: rejects locally, with no request, when `task_number` is
      undefined or `task_description` is undefined or empty (0 is an
      accepted number); otherwise posts the payload as given. */
  function CreateTask(tguserId: int, taskData: TaskData, reply: Reply<Task>): (c: Call<Task, TaskData>)
    ensures Rejected(c) <==>
      taskData.taskNumber == None || taskData.taskDescription == None || taskData.taskDescription == Some("")
    ensures Rejected(c) ==> c.sent == [] && c.result.error.message == MissingFields
    ensures !Rejected(c) ==>
      Relayed(c, Request(Post, Path(Collection, None), Some(taskData), Some(tguserId)), reply)
  {
    if !Creatable(taskData) then Reject(MissingFields)
    else Exchange(Request(Post, Path(Collection, None), Some(taskData), Some(tguserId)), reply)
  }

  /** `updateTask`: one PUT to `/tasks/{task_id}` carrying the partial payload unchanged. */
  function UpdateTask(tguserId: int, taskId: int, taskData: TaskData, reply: Reply<Task>): (c: Call<Task, TaskData>)
    ensures Relayed(c, Request(Put, Path(Collection, Some(taskId)), Some(taskData), Some(tguserId)), reply)
  {
    Exchange(Request(Put, Path(Collection, Some(taskId)), Some(taskData), Some(tguserId)), reply)
  }

  /** `deleteTask`: one DELETE to `/tasks/{task_id}` carrying `tguser_id`. */
  function DeleteTask(tguserId: int, taskId: int, reply: Reply<Message>): (c: Call<Message, TaskData>)
    ensures Relayed(c, Request(Delete, Path(Collection, Some(taskId)), None, Some(tguserId)), reply)
  {
    Exchange(Request(Delete, Path(Collection, Some(taskId)), None, Some(tguserId)), reply)
  }
}

=== FILE: user_profile.dfy ===
/** The user profile component: the loaded user, the edit buffer, the edit
    mode, the loading flag and the error string. */
module UserProfileScreen {
  import opened Js
  import opened Http
  import opened Identity

  const Collection := "/user"
  const UserNotFound := "User not found"
  const LoadFailed := "Error loading user data"
  const SaveFailed := "Error updating user data"

  /** A JSON property value. */
  datatype Value = Text(text: string) | Number(number: int) | Flag(flag: bool)

  /** A user object, or a partial one, as a map from property name to value:
      the input handler writes whatever property its control names. */
  type UserRecord = map<string, Value>

  datatype State = State(
    userData: Option<UserRecord>,
    editMode: bool,
    formData: UserRecord,
    isLoading: bool,
    error: Option<string>)

  /** A transition's resulting state and the requests it issued. */
  datatype Step = Step(state: State, sent: seq<Request<UserRecord>>)

  function Initial(): (s: State)
    ensures s.userData == None && !s.editMode && s.formData == map[] && s.isLoading && s.error == None
  {
    State(None, false, map[], true, None)
  }

  /** The load effect: a fetched user fills both the view and the edit
      buffer; a failure sets the load error; the loading flag clears either way. */
  function Load(s: State, tguserId: int, reply: Reply<UserRecord>): (step: Step)
    ensures !step.state.isLoading
    ensures step.state.editMode == s.editMode
    ensures Unidentified(tguserId) ==>
      step == Step(s.(isLoading := false, error := Some(UserNotFound)), [])
    ensures !Unidentified(tguserId) ==>
      step.sent == [Request(Get, Path(Collection, None), None, Some(tguserId))]
    ensures !Unidentified(tguserId) && reply.Delivered? ==>
      step.state == s.(userData := Some(reply.data), formData := reply.data, isLoading := false)
    ensures !Unidentified(tguserId) && reply.Failed? ==>
      step.state == s.(isLoading := false, error := Some(LoadFailed))
  {
    if Unidentified(tguserId) then Step(s.(isLoading := false, error := Some(UserNotFound)), [])
    else
      var request := Request(Get, Path(Collection, None), None, Some(tguserId));
      match reply
      case Delivered(user) => Step(s.(userData := Some(user), formData := user, isLoading := false), [request])
      case Failed(_) => Step(s.(isLoading := false, error := Some(LoadFailed)), [request])
  }

  /** `handleInputChange`: sets the named property of the edit buffer to the
      typed text; every other property and the rest of the state stay. */
  function HandleInputChange(s: State, name: string, value: string): (s': State)
    ensures name in s'.formData && s'.formData[name] == Text(value)
    ensures forall k :: k in s.formData && k != name ==> k in s'.formData && s'.formData[k] == s.formData[k]
    ensures forall k :: k in s'.formData ==> k in s.formData || k == name
    ensures s' == s.(formData := s'.formData)
  {
    s.(formData := s.formData[name := Text(value)])
  }

  /** `handleSave`: sends the edit buffer; the server's user replaces the
      shown one and edit mode ends, or the save error is set and the shown
      user stays. */
  function HandleSave(s: State, tguserId: int, reply: Reply<UserRecord>): (step: Step)
    ensures Unidentified(tguserId) ==> step == Step(s, [])
    ensures !Unidentified(tguserId) ==>
      step.sent == [Request(Put, Path(Collection, None), Some(s.formData), Some(tguserId))]
    ensures !Unidentified(tguserId) && reply.Delivered? ==>
      step.state == s.(userData := Some(reply.data), editMode := false)
    ensures !Unidentified(tguserId) && reply.Failed? ==>
      step.state == s.(error := Some(SaveFailed))
  {
    if Unidentified(tguserId) then Step(s, [])
    else
      var request := Request(Put, Path(Collection, None), Some(s.formData), Some(tguserId));
      match reply
      case Delivered(user) => Step(s.(userData := Some(user), editMode := false), [request])
      case Failed(_) => Step(s.(error := Some(SaveFailed)), [request])
  }
}

=== FILE: user_statistics.dfy ===
/** The user statistics component: the statistics rows, the loading flag
    and the error string. */
module UserStatisticsScreen {
  import opened Js
  import opened Http
  import opened Identity

  const Collection := "/user/statistics"
  const UserNotFound := "User not found"
  const LoadFailed := "Error loading statistics"

  /** One day's statistics row as the server returns it. */
  datatype UserStatistic = UserStatistic(
    statisticsId: int,
    userId: int,
    date: string,
    tasksCompleted: int,
    tasksPending: int,
    habitsFollowed: int,
    productivityScore: int,
    notes: Option<string>,
    customField: Option<string>,
    createdAt: Option<string>,
    updatedAt: Option<string>)

  datatype State = State(statistics: seq<UserStatistic>, isLoading: bool, error: Option<string>)

  /** A transition's resulting state and the requests it issued. */
  datatype Step = Step(state: State, sent: seq<Request<()>>)

  function Initial(): (s: State)
    ensures s.statistics == [] && s.isLoading && s.error == None
  {
    State([], true, None)
  }

  /** The load effect: without a user id nothing is fetched and "User not
      found" is set; otherwise the rows are stored as returned or the load
      error is set. The loading flag clears in every case. */
  function Load(s: State, tguserId: int, reply: Reply<seq<UserStatistic>>): (step: Step)
    ensures !step.state.isLoading
    ensures Unidentified(tguserId) ==>
      step == Step(s.(isLoading := false, error := Some(UserNotFound)), [])
    ensures !Unidentified(tguserId) ==>
      step.sent == [Request(Get, Path(Collection, None), None, Some(tguserId))]
    ensures !Unidentified(tguserId) && reply.Delivered? ==>
      step.state == s.(statistics := reply.data, isLoading := false)
    ensures !Unidentified(tguserId) && reply.Failed? ==>
      step.state == s.(isLoading := false, error := Some(LoadFailed))
  {
    if Unidentified(tguserId) then Step(s.(isLoading := false, error := Some(UserNotFound)), [])
    else
      var request := Request(Get, Path(Collection, None), None, Some(tguserId));
      match reply
      case Delivered(rows) => Step(s.(statistics := rows, isLoading := false), [request])
      case Failed(_) => Step(s.(isLoading := false, error := Some(LoadFailed)), [request])
  }
}
